=== FILE: README.md ===
# LinkedIn post assistant: request handling, modelled in Dafny

The application lets a user sign in with LinkedIn and then ask an n8n automation
webhook to generate or publish a LinkedIn post. This project models the
request-decision logic of its serverless handlers. Each handler becomes a pure
function from an abstract request to an abstract response. The request has a
method, a cookie header, query parameters and body fields. The response records
the status, the headers, the `Set-Cookie` cookie, the redirect target, the body
and the payload sent to the webhook, if any. Every external call is a function
parameter whose answer stands for that call's outcome:

- JWT `verify` and `sign`;
- the webhook `fetch`;
- the LinkedIn token exchange and profile fetch;
- the Supabase user lookup and creation;
- `encodeURIComponent`.

Modules, one per source file or shared concern:

- `Wrappers`: `Option` and `Result`.
- `Strings`: JavaScript `split` with a one-character separator, `trim`, `includes` and decimal rendering, on `seq<char>`.
- `Js`: JavaScript values and their truthiness, `||`, and property reads.
- `Http`: requests, responses, cookies and redirect locations.
- `Auth` (`lib/auth.js`): the cookie-header parser, the session lookup, `getUserFromRequest` and `requireAuth`.
- `AuthCheck` (`api/auth/check.js`).
- `Proxy`: what `api/generate.js` and `api/publish.js` share. This is the CORS headers, the preflight answer and the webhook outcome.
- `Generate` (`api/generate.js`) and `Publish` (`api/publish.js`).
- `LinkedInLogin` (`api/auth/linkedin.js`) and `LinkedInCallback` (`api/auth/linkedin/callback.js`).
- `SessionFlow`: how the callback's session cookie and the request authenticator fit together.

The cookie parser is modelled as the code behaves:

- Each `;`-separated piece is trimmed and split on every `=`.
- Only the first two parts are kept, so in `session=abc=def` the value is `abc`. See `Auth.ParseEntryTruncates` and `Auth.SessionValueTruncated`.
- A later piece with the same key overrides an earlier one.
- A piece without `=` gives an undefined value, which counts as no session.
- The key `__proto__` never becomes a key of the parsed object. Assigning a string or `undefined` to it runs the setter inherited from `Object.prototype`, which ignores such values.

Further facts of the code that the model keeps:

- The callback always sets `Secure` on the session cookie. Only the OAuth state cookie leaves it out, when the redirect URI contains `localhost`.
- `/api/auth/check` answers 401 `{authenticated: false}` when there is no valid session.
- The callback reads the `state` parameter but never compares it. `LinkedInCallback.StateIgnored` states that it has no effect.
- `res.redirect(url)` is called without a status, so the status is the serverless runtime's default. The model takes it as `Http.RedirectStatus` = 307. The number appears nowhere in the source.

## Model

| member | source | states |
|---|---|---|
| Strings.JoinSplit | lib/auth.js:7-8 | Splitting a string on a separator loses nothing: joining the pieces back with the separator gives the original string |
| Strings.SplitJoin | lib/auth.js:7-8 | Separator-free pieces joined with the separator are recovered exactly by `split` |
| Strings.TrimCutsMargins | lib/auth.js:8 | `trim` removes exactly the whitespace margins: what is left is a slice with only whitespace before and after it, and no whitespace at its edges |
| Strings.TrimmedFromUnique | lib/auth.js:8 | The trimmed form of a string is unique |
| Strings.ContainsIffOccurs | api/auth/linkedin.js:19 | `includes` holds exactly when the substring occurs at some position |
| Auth.ParseEntryTruncates | lib/auth.js:8 | A cookie piece's key is the trimmed text before its first `=`, and its value is the text between the first and second `=`. Anything after a second `=` is dropped, and a piece with no `=` has no value and keeps the whole trimmed text as key |
| Auth.JarKeys | lib/auth.js:7-11 | The object the `reduce` builds has exactly the keys that occur in the header, except `__proto__`, which never becomes a key |
| Auth.JarLastWins | lib/auth.js:9 | When a key repeats, the object holds the value of its last occurrence. The key `__proto__` is never held |
| Auth.JarKeyHasLast | lib/auth.js:7-11 | Every key of the object comes from a last occurrence in the header |
| Auth.SessionToken | lib/auth.js:7-17 | An absent cookie header gives no session token, and a token that is found is never empty |
| Auth.SessionTokenIsLastSessionEntry | lib/auth.js:7-17 | The header yields token `v` if and only if the last `session` entry of the header has the non-empty value `v` |
| Auth.SessionOnlyCookie | lib/auth.js:7-17 | The header `session=<t>` yields `t` for a token without `=`, `;` or whitespace margins |
| Auth.LaterSessionWins | lib/auth.js:9 | Appending `; session=<t>` to any header makes `t` the session token, whatever came before |
| Auth.SessionValueTruncated | lib/auth.js:8 | `session=<t>=<x>` yields only `t`: the value is cut at the second `=`. This holds for any token without `=`, `;` or whitespace margins and any `x` without `;`, including one that ends in whitespace |
| Auth.BareSessionClears | lib/auth.js:8-17 | A final `session` piece without `=`, with any whitespace before or after it, leaves the session undefined, so there is no user whatever came before |
| Auth.EmptySessionValue | lib/auth.js:13-17 | A final `session=` with nothing after it gives an empty, falsy token, so there is no user |
| Auth.GetUser | lib/auth.js:4-27 | Without a session token there is no user and the verifier is not asked. Otherwise the user is exactly the verifier's answer for the token, and a rejected token gives no user rather than an error |
| Auth.RequireAuth | lib/auth.js:29-41 | Without a user the answer is 401 `Unauthorized. Please login.` and the wrapped handler is not consulted. With one, the answer is the wrapped handler's on the request with `user` set to the decoded claims |
| AuthCheck.Check | api/auth/check.js:4-22 | Non-GET gives 405. A GET gives 401 `{authenticated: false}` exactly when there is no user, and 200 `{authenticated: true, user: {email, name}}` exactly when there is one. No other status occurs, and no cookie or redirect is set |
| AuthCheck.CheckMethodFirst | api/auth/check.js:5-7 | For any method other than GET the answer depends on neither the cookie header nor the verifier |
| AuthCheck.CheckRevealsOnlyEmailAndName | api/auth/check.js:15-21 | Claims that agree on `email` and `name` give the same answer, so no other claim, including the access token, is exposed |
| Proxy.UpstreamStatusReported | api/generate.js:52-54 | A non-ok webhook answer raises `n8n returned <status>`, and the status can be read back from the message |
| Generate.Generate | api/generate.js:5-69 | Every answer carries the four CORS headers and has status 200, 400, 401, 405 or 500. OPTIONS gives the empty 200 preflight. Any method but POST and OPTIONS gives 405, a POST without a user 401, and a POST with a falsy `theme`, `post_type`, `length` or `tone` 400 `Missing required fields`. A body that cannot be destructured gives 500. The webhook is called exactly when every check passed, with exactly those four fields and `brand_context` defaulted to `Quest And Crossfire - Small fixes, big clarity`. It then gives 200 with the upstream text verbatim if no error was raised, else 500 `Failed to generate post` with the error message as details |
| Generate.NoForwardNoWebhook | api/generate.js:24-50 | When nothing is forwarded, the answer does not depend on the webhook |
| Publish.Publish | api/publish.js:5-66 | Every answer carries the four CORS headers and has status 200, 400, 401, 405 or 500. OPTIONS gives the empty 200 preflight. Any method but POST and OPTIONS gives 405, a POST without a user 401, and a falsy `post_text` 400 `Post text is required`. A body that cannot be destructured gives 500. The webhook is called exactly when every check passed, with exactly `post_text` and `metadata` defaulted to `{}`. It then gives 200 with the upstream JSON unchanged if no error was raised, else 500 `Failed to publish post` with details |
| Publish.PostIdIgnored | api/publish.js:30-46 | `post_id` in the body has no effect on the answer or the payload |
| Publish.NoForwardNoWebhook | api/publish.js:24-47 | When nothing is forwarded, the answer does not depend on the webhook |
| LinkedInLogin.Initiate | api/auth/linkedin.js:2-40 | Non-GET gives 405 `{error: 'Method not allowed'}`. A GET with a missing or empty client id or redirect URI gives 500 `LinkedIn OAuth not configured`, with no cookie and no redirect. Otherwise it redirects to the authorization endpoint with `response_type`, `client_id`, `redirect_uri`, `state` and `scope` in that order. The cookie set is exactly the state cookie for that state and redirect URI: it holds the same state sent to the provider, always has HttpOnly, SameSite=Lax, Path=/ and Max-Age=600, and has `Secure` exactly when the redirect URI does not contain `localhost` |
| LinkedInLogin.SecureUnlessLocalhost | api/auth/linkedin.js:19-22 | The state cookie is `Secure` if and only if `localhost` occurs nowhere in the redirect URI |
| LinkedInLogin.StateCookieText | api/auth/linkedin.js:19-24 | The rendered state cookie is, character for character, `linkedin_oauth_state=<state>; HttpOnly; SameSite=Lax; Path=/; Max-Age=600` when the redirect URI contains `localhost`, and the same with `; Secure` after `HttpOnly` otherwise |
| LinkedInCallback.ResolveUser | api/auth/linkedin/callback.js:57-85 | A found user's id is reused. When no row comes back the user is created from the profile and access token. A creation failure, or a throwing lookup, gives no user |
| LinkedInCallback.SessionClaims | api/auth/linkedin/callback.js:88-97 | The signed claims have exactly the keys `userId`, `email`, `name` and `linkedin_access_token`, taken from the user id, the profile and the access token |
| LinkedInCallback.Callback | api/auth/linkedin/callback.js:5-109 | Non-GET gives 405 `{error: 'Method not allowed'}`, and every other answer is a redirect. An `error` parameter redirects to `/?error=` plus the encoded description, or the error itself, before `code` is looked at. A missing code redirects to `/?error=No authorization code received`. A failure anywhere in the exchange, profile, lookup, creation or signing redirects to the encoded generic failure message. A session cookie is set if and only if the whole chain succeeded, and then it carries the signed token and the redirect goes to `/dashboard.html` |
| LinkedInCallback.StateIgnored | api/auth/linkedin/callback.js:10 | The `state` query parameter is never compared: any state value, or none, gives the same answer |
| LinkedInCallback.FoundUserNotCreated | api/auth/linkedin/callback.js:65-66 | When the lookup finds a user, user creation is not consulted |
| LinkedInCallback.LookupErrorIgnored | api/auth/linkedin/callback.js:57-67 | A lookup that reports a query error is treated exactly like one that finds no user |
| LinkedInCallback.SessionLifetime | api/auth/linkedin/callback.js:100 | The session cookie always carries `Secure`, and its `Max-Age` reads back as 604800 seconds (seven days) |
| LinkedInCallback.SessionSetCookieText | api/auth/linkedin/callback.js:100 | The rendered session cookie is, character for character, `session=<token>; HttpOnly; Secure; SameSite=Lax; Path=/; Max-Age=604800` |
| SessionFlow.LoginThenCheck | api/auth/linkedin/callback.js:88-103 | After a successful callback, a check request that sends back the session cookie answers 200 with the email and name of the signed-in LinkedIn profile. This assumes that the verifier accepts what the signer produced from signable claims and returns a payload in which every such claim reads back unchanged; extra fields such as `iat` and `exp` are allowed. Signable claims have values that survive JSON (strings, booleans, `null`, `undefined`) and no `iat` or `exp` key. It also assumes the signed claims are JSON-safe and the token has no `=`, `;` or edge whitespace |
| SessionFlow.CheckAfterSignIn | api/auth/check.js:9-21 | After a successful sign-in with JSON-safe claims, a check request carrying `session=<token>` with the signed token is authenticated and answers 200. Every signed claim reads back unchanged from the user, under the same assumption on the verifier |
| SessionFlow.StampedPayloadKeepsClaims | api/auth/linkedin/callback.js:88-97 | The payload a token signed with `expiresIn: '7d'` decodes to, the claims through JSON stamped with `iat` and `exp`, still holds every claim it was made from |
| SessionFlow.StampingSignerRoundTrips | api/auth/linkedin/callback.js:88-97 | A signer and verifier that give back that stamped JSON payload for every token made from signable claims meet the assumption `LoginThenCheck` and `CheckAfterSignIn` make on the verifier |
| SessionFlow.RenderedCookieParsesBack | lib/auth.js:7-11 | The `name=value` part of a rendered `Set-Cookie` header is read back by the request parser as that name and value, whatever attributes follow |
| SessionFlow.SessionSetCookieParsesBack | api/auth/linkedin/callback.js:100 | The rendered session cookie header starts with the `session` entry carrying the signed token |

## Left out

- `lib/supabase.js` is not part of this model. The user lookup and creation calls are the `lookup` and `createUser` parameters of `LinkedInCallback.Services`.
- JWT signing and verification (`jsonwebtoken`), including signatures, expiry and the secret, are the `sign` and `verify` function parameters. A missing secret or an expired token is a `None` from `verify`.
- `fetch`, reading JSON or text response bodies, `URLSearchParams` and the serialisation of `URL`:
  - The webhook call is an abstract `Proxy.Upstream` outcome: a rejected fetch, or an answer with its `ok` flag, status and body-read result.
  - The LinkedIn token exchange and profile fetch are `Option` outcomes. Here `None` covers a non-ok answer and a throw alike, since both lead to the same failure redirect.
  - The authorization URL is kept as its base and its list of query parameters, without serialising them into one string.
- `encodeURIComponent` is the `encode` parameter, with no assumption about its output.
- `Math.random().toString(36).substring(7)` is replaced by the `state` input of `LinkedInLogin.Initiate`.
- `console.log` and `console.error` are left out, since they have no effect on any response.
- Request bodies are given as their own properties. Only a `null` or `undefined` body is `NoObject`, carrying the TypeError message that destructuring it raises. A string, number or boolean body destructures without error. Its `length` is defined for a string, but `theme` and `post_text` are undefined, so the answer is the 400 of `Fields(map[])`, which stands for such a body.
- Query values are strings. The runtime can also give a repeated query key as an array, which is not modelled.
- `Http.RedirectStatus` (307) is the runtime's default for `res.redirect(url)`. It does not come from the source.
- SessionFlow.LoginThenCheck: proved only for signed claims whose values are strings, booleans, `null` or `undefined`. A JSON round trip changes other values (`NaN` becomes `null`, for instance), and the model does not describe that change.
- SessionFlow.CheckAfterSignIn: the same restriction to JSON-safe claims.
- SessionFlow.StampedPayloadKeepsClaims: it and `StampingSignerRoundTrips` describe the JSON round trip of `jsonwebtoken` only for JSON-safe claims, which is all `SignVerifyRoundTrip` asks about.
- `jwt.verify` may return a string payload. The model treats claims as objects only.
- The code has no email allow-list, no persistence of posts, no ownership check on publish, no state (CSRF) comparison, no logout and no timeouts, so the model has none either.

=== FILE: auth.dfy ===
/** The request authenticator (`lib/auth.js`): the cookie-header parser, the
    session lookup, token verification through an oracle, and the `requireAuth`
    wrapper. The parser is modelled as written, including its truncation of values
    at a second `=`. */
module Auth {
  import opened Wrappers
  import opened Strings
  import opened Js
  import opened Http

  const SessionCookieName := "session"

  /** One `key=value` piece of the cookie header: `value` is absent (`undefined`)
      when the trimmed piece has no `=`. */
  datatype Entry = Entry(key: string, value: Option<string>)

  /** `const [key, value] = cookie.trim().split('=')`. */
  function ParseEntry(piece: string): Entry {
    var parts := Split(Trim(piece), '=');
    Entry(parts[0], if |parts| == 1 then None else Some(parts[1]))
  }

  /** The key is the text of the trimmed piece before its first `=`, and the value
      the text between the first and the second `=`; anything from a second `=`
      onwards is dropped, and a piece without `=` has no value. */
  lemma ParseEntryTruncates(piece: string)
    ensures var e, t := ParseEntry(piece), Trim(piece);
      && '=' !in e.key
      && (e.value.None? <==> '=' !in t)
      && (e.value.None? ==> e.key == t)
      && (e.value.Some? ==> '=' !in e.value.value)
      && (e.value.Some? ==>
            var n := |e.key| + 1 + |e.value.value|;
            && n <= |t|
            && t[..n] == e.key + "=" + e.value.value
            && (n == |t| || t[n] == '='))
  {
    var t := Trim(piece);
    var parts := Split(t, '=');
    JoinSplit(t, '=');
    if |parts| > 1 {
      var tail := Join(parts[1..], '=');
      assert t == parts[0] + "=" + tail;
      assert |parts| > 2 ==> tail == parts[1] + "=" + Join(parts[2..], '=');
      assert t[|parts[0]|] == '=';
    }
  }

  /** The entries of a cookie header, one per `;`-separated piece, in order. */
  function CookieEntries(header: string): (es: seq<Entry>)
    ensures |es| == |Split(header, ';')|
    ensures forall i :: 0 <= i < |es| ==> es[i] == ParseEntry(Split(header, ';')[i])
  {
    var pieces := Split(header, ';');
    seq(|pieces|, i requires 0 <= i < |pieces| => ParseEntry(pieces[i]))
  }

  /** Entry `i` is the last one with its key. */
  predicate LastWithKey(es: seq<Entry>, i: int) {
    && 0 <= i < |es|
    && forall j :: i < j < |es| ==> es[j].key != es[i].key
  }

  /** The one key for which `acc[key] = value` on a plain object creates no own
      property: it runs the setter inherited from `Object.prototype`, which ignores
      a value that is not an object, as a string or `undefined` never is. */
  const ProtoKey := "__proto__"

  /** The object the `reduce` builds: `acc[key] = value` for each entry in turn. */
  function Jar(es: seq<Entry>): map<string, Option<string>> {
    if |es| == 0 then map[]
    else
      var acc, last := Jar(es[..|es| - 1]), es[|es| - 1];
      if last.key == ProtoKey then acc else acc[last.key := last.value]
  }

  /** The jar's keys are exactly the keys that occur, except `__proto__`. */
  lemma {:induction false} JarKeys(es: seq<Entry>)
    ensures forall k :: k in Jar(es) <==> k != ProtoKey && exists i :: 0 <= i < |es| && es[i].key == k
  {
    if |es| > 0 {
      var init, last := es[..|es| - 1], es[|es| - 1];
      JarKeys(init);
      assert Jar(es) == if last.key == ProtoKey then Jar(init) else Jar(init)[last.key := last.value];
      forall k | k in Jar(es) ensures k != ProtoKey && exists i :: 0 <= i < |es| && es[i].key == k {
        if k == last.key && k in Jar(init) {
          var i :| 0 <= i < |init| && init[i].key == k;
          assert es[i].key == k;
        } else if k == last.key {
          assert es[|es| - 1].key == k;
        } else {
          var i :| 0 <= i < |init| && init[i].key == k;
          assert es[i].key == k;
        }
      }
      forall k | k != ProtoKey && exists i :: 0 <= i < |es| && es[i].key == k ensures k in Jar(es) {
        var i :| 0 <= i < |es| && es[i].key == k;
        if i < |es| - 1 {
          assert init[i].key == k;
        }
      }
    }
  }

  /** Later entries override earlier ones: a key other than `__proto__` maps to the
      value of the LAST entry with that key, and `__proto__` never becomes a key. */
  lemma {:induction false} JarLastWins(es: seq<Entry>, i: int)
    requires LastWithKey(es, i)
    ensures es[i].key != ProtoKey ==> es[i].key in Jar(es) && Jar(es)[es[i].key] == es[i].value
    ensures es[i].key == ProtoKey ==> ProtoKey !in Jar(es)
  {
    var init, last := es[..|es| - 1], es[|es| - 1];
    if i < |es| - 1 {
      assert LastWithKey(init, i) by {
        forall j | i < j < |init| ensures init[j].key != init[i].key {
          assert init[j] == es[j];
        }
      }
      JarLastWins(init, i);
    } else if |init| > 0 && es[i].key == ProtoKey {
      JarKeys(init);
    }
  }

  /** Every key of the jar has a last entry. */
  lemma {:induction false} JarKeyHasLast(es: seq<Entry>, k: string)
    requires k in Jar(es)
    ensures exists i :: LastWithKey(es, i) && es[i].key == k
  {
    var init, last := es[..|es| - 1], es[|es| - 1];
    if k == last.key {
      assert LastWithKey(es, |es| - 1);
    } else {
      JarKeyHasLast(init, k);
      var i :| LastWithKey(init, i) && init[i].key == k;
      assert LastWithKey(es, i);
    }
  }

  /** `cookies?.session` followed by the `!sessionToken` test: the session token,
      or nothing when the header is absent, has no `session` key, or its last
      `session` entry has no value or an empty one. */
  function SessionToken(cookie: Option<string>): (token: Option<string>)
    ensures cookie.None? ==> token.None?
    ensures token.Some? ==> token.value != ""
  {
    match cookie
    case None => None
    case Some(header) =>
      var es := CookieEntries(header);
      var jar := Jar(es);
      if SessionCookieName in jar && jar[SessionCookieName].Some? && jar[SessionCookieName].value != "" then
        jar[SessionCookieName]
      else None
  }

  /** Reference reading of the session lookup: the header yields token `v` exactly
      when the last `session` entry of the header carries the non-empty value `v`. */
  lemma SessionTokenIsLastSessionEntry(header: string, v: string)
    ensures SessionToken(Some(header)) == Some(v) <==>
      exists i :: LastWithKey(CookieEntries(header), i)
               && CookieEntries(header)[i] == Entry(SessionCookieName, Some(v))
               && v != ""
  {
    var es := CookieEntries(header);
    if SessionToken(Some(header)) == Some(v) {
      JarKeyHasLast(es, SessionCookieName);
      var i :| LastWithKey(es, i) && es[i].key == SessionCookieName;
      JarLastWins(es, i);
      assert es[i] == Entry(SessionCookieName, Some(v));
    }
    if exists i :: LastWithKey(es, i) && es[i] == Entry(SessionCookieName, Some(v)) && v != "" {
      var i :| LastWithKey(es, i) && es[i] == Entry(SessionCookieName, Some(v)) && v != "";
      JarLastWins(es, i);
    }
  }

  /** A token the parser can carry intact: non-empty, free of `=` and `;`, and
      without whitespace margins. The base64url segments of a signed session token
      joined by `.` are of this shape. */
  predicate WellFormedToken(t: string) {
    |t| > 0 && '=' !in t && ';' !in t && NoEdgeSpace(t)
  }

  lemma SplitKeyValue(key: string, value: string, rest: string)
    requires '=' !in key && '=' !in value
    requires rest == [] || rest[0] == '='
    ensures var parts := Split(key + "=" + value + rest, '=');
      |parts| >= 2 && parts[0] == key && parts[1] == value
  {
    var t := key + "=" + value + rest;
    if rest == [] {
      assert t == Join([key, value], '=');
      SplitJoin([key, value], '=');
    } else {
      assert t == key + ['='] + (value + ['='] + rest[1..]);
      SplitAfterPiece(key, value + ['='] + rest[1..], '=');
      SplitAfterPiece(value, rest[1..], '=');
    }
  }

  lemma ParseEntryFromParts(piece: string, key: string, value: string)
    requires var parts := Split(Trim(piece), '='); |parts| >= 2 && parts[0] == key && parts[1] == value
    ensures ParseEntry(piece) == Entry(key, Some(value))
  {
  }

  /** A piece `key=value` possibly followed by `=...`, behind leading whitespace,
      parses to that key and value. */
  lemma ParseEntryOf(pad: string, key: string, value: string, rest: string)
    requires AllSpace(pad) && '=' !in key && '=' !in value
    requires rest == [] || rest[0] == '='
    requires NoEdgeSpace(key + "=" + value + rest)
    ensures ParseEntry(pad + key + "=" + value + rest) == Entry(key, Some(value))
  {
    var t := key + "=" + value + rest;
    assert pad + key + "=" + value + rest == pad + t;
    TrimAfterSpace(pad, t);
    SplitKeyValue(key, value, rest);
    ParseEntryFromParts(pad + t, key, value);
  }

  /** When the last entry of the header is a `session` entry, it alone decides. */
  lemma SessionFromLastEntry(header: string)
    requires var es := CookieEntries(header); es[|es| - 1].key == SessionCookieName
    ensures var last := CookieEntries(header)[|CookieEntries(header)| - 1];
      SessionToken(Some(header)) == if last.value.Some? && last.value.value != "" then last.value else None
  {
    var es := CookieEntries(header);
    assert SessionCookieName != ProtoKey;
    assert Jar(es) == Jar(es[..|es| - 1])[SessionCookieName := es[|es| - 1].value];
  }

  /** A header ending in `;piece`, where the piece is a `session` entry, is decided
      by that piece alone. */
  lemma LastPieceDecides(h: string, piece: string)
    requires ';' !in piece && ParseEntry(piece).key == SessionCookieName
    ensures var v := ParseEntry(piece).value;
      SessionToken(Some(h + [';'] + piece)) == if v.Some? && v.value != "" then v else None
  {
    SplitAppend(h, piece, ';');
    SessionFromLastEntry(h + [';'] + piece);
  }

  /** A header without `;` is a single entry. */
  lemma SinglePieceEntry(h: string)
    requires ';' !in h
    ensures CookieEntries(h) == [ParseEntry(h)]
  {
    SplitNoSeparator(h, ';');
  }

  /** The cookie a browser sends back after the login callback: `session=<token>`
      yields the token. */
  lemma SessionOnlyCookie(t: string)
    requires WellFormedToken(t)
    ensures SessionToken(Some("session=" + t)) == Some(t)
  {
    var h := "session=" + t;
    ParseEntryOf("", SessionCookieName, t, "");
    assert "" + SessionCookieName + "=" + t + "" == h;
    SinglePieceEntry(h);
    SessionFromLastEntry(h);
  }

  lemma SessionPiece(t: string)
    requires WellFormedToken(t)
    ensures ParseEntry(" session=" + t) == Entry(SessionCookieName, Some(t))
  {
    ParseEntryOf(" ", SessionCookieName, t, "");
    assert " " + SessionCookieName + "=" + t + "" == " session=" + t;
  }

  /** When `session` occurs twice, the later occurrence wins, whatever precedes it. */
  lemma LaterSessionWins(h: string, t: string)
    requires WellFormedToken(t)
    ensures SessionToken(Some(h + "; session=" + t)) == Some(t)
  {
    SessionPiece(t);
    LastPieceDecides(h, " session=" + t);
    assert h + [';'] + (" session=" + t) == h + "; session=" + t;
  }

  /** The value stops at a second `=`: `session=<t>=<x>` yields only `t`. */
  lemma SessionValueTruncated(t: string, x: string)
    requires WellFormedToken(t) && ';' !in x
    ensures SessionToken(Some("session=" + t + "=" + x)) == Some(t)
  {
    var h := "session=" + t + "=" + x;
    var n := TrailingSpace(h);
    assert h[0] == 's' && h[|h| - |x| - 1] == '=';
    assert n <= |x|;
    var r := h[..|h| - n];
    assert r == SessionCookieName + "=" + t + ("=" + x[..|x| - n]);
    TrimmedFromIsTrim(r, h, 0, |h| - n);
    SplitKeyValue(SessionCookieName, t, "=" + x[..|x| - n]);
    ParseEntryFromParts(h, SessionCookieName, t);
    SinglePieceEntry(h);
    SessionFromLastEntry(h);
  }

  lemma BareSessionPiece(pad: string, trail: string)
    requires AllSpace(pad) && AllSpace(trail)
    ensures ParseEntry(pad + SessionCookieName + trail) == Entry(SessionCookieName, None)
  {
    var s := pad + SessionCookieName + trail;
    assert s[|pad|..|pad| + 7] == SessionCookieName;
    assert s[..|pad|] == pad && s[|pad| + 7..] == trail;
    TrimmedFromIsTrim(SessionCookieName, s, |pad|, |pad| + 7);
    SplitNoSeparator(SessionCookieName, '=');
  }

  lemma BarePieceUnbroken(pad: string, trail: string)
    requires AllSpace(pad) && AllSpace(trail)
    ensures ';' !in pad + SessionCookieName + trail
  {
    assert ';' !in pad && ';' !in trail && ';' !in SessionCookieName;
  }

  /** A later piece `session` without `=` sets the entry to `undefined`, which
      counts as no session at all, whatever came before. */
  lemma BareSessionClears(h: string, pad: string, trail: string)
    requires AllSpace(pad) && AllSpace(trail)
    ensures SessionToken(Some(h + ";" + pad + "session" + trail)) == None
  {
    var piece := pad + SessionCookieName + trail;
    BareSessionPiece(pad, trail);
    BarePieceUnbroken(pad, trail);
    LastPieceDecides(h, piece);
    assert h + [';'] + piece == h + ";" + pad + "session" + trail;
  }

  lemma EmptySessionPiece(pad: string)
    requires AllSpace(pad)
    ensures ParseEntry(pad + SessionCookieName + "=") == Entry(SessionCookieName, Some(""))
  {
    ParseEntryOf(pad, SessionCookieName, "", "");
    assert pad + SessionCookieName + "=" + "" + "" == pad + SessionCookieName + "=";
  }

  /** `session=` with nothing after it is an empty, hence falsy, token. */
  lemma EmptySessionValue(h: string, pad: string)
    requires AllSpace(pad)
    ensures SessionToken(Some(h + ";" + pad + "session=")) == None
  {
    EmptySessionPiece(pad);
    LastPieceDecides(h, pad + SessionCookieName + "=");
    assert h + [';'] + (pad + SessionCookieName + "=") == h + ";" + pad + "session=";
  }

  /** `getUserFromRequest`: the verify oracle's answer on the session token. A
      token that fails verification (bad signature, expired, missing secret) gives
      no user rather than an error. */
  function GetUser(req: Request, verify: string -> Option<Claims>): (user: Option<Claims>)
    ensures SessionToken(req.cookie).None? ==> user.None?
    ensures SessionToken(req.cookie).Some? ==> user == verify(SessionToken(req.cookie).value)
  {
    match SessionToken(req.cookie)
    case None => None
    case Some(token) => verify(token)
  }

  const UnauthorizedLogin := "Unauthorized. Please login."

  /** `requireAuth(handler)` applied to `req`: without a user, a 401 and the inner
      handler is not consulted; with one, the inner handler's response to the
      request with `user` attached. */
  function RequireAuth(inner: Request -> Response, verify: string -> Option<Claims>, req: Request): (res: Response)
    ensures GetUser(req, verify).None? ==> res == JsonReply(401, [], ErrorObject(UnauthorizedLogin))
    ensures GetUser(req, verify).Some? ==> res == inner(req.(user := GetUser(req, verify)))
  {
    match GetUser(req, verify)
    case None => JsonReply(401, [], ErrorObject(UnauthorizedLogin))
    case Some(claims) => inner(req.(user := Some(claims)))
  }
}

=== FILE: callback.dfy ===
/** `GET /api/auth/linkedin/callback`: the provider redirects here with either an
    error or an authorization code. The code is exchanged for an access token, the
    profile is fetched, the user is looked up by email or created, and a signed
    session token is set as a cookie. Every external call is an oracle in
    `Services`; a `None` answer stands for the call throwing (or, for the token
    exchange and profile fetch, answering non-ok), which the handler's `catch`
    turns into the generic failure redirect. */
module LinkedInCallback {
  import opened Wrappers
  import opened Strings
  import opened Js
  import opened Http
  import Auth

  /** The outcome of the `.from('auth.users').select('id').eq('email', ...).single()`
      query: the call threw, a row was found, or no row came back (with the query
      error, if any, which the handler ignores). */
  datatype Lookup = LookupThrew | Found(id: JsValue) | NoRow(queryError: Option<string>)

  datatype Services = Services(
    exchange: string -> Option<JsValue>,                 // code -> access_token
    profile: JsValue -> Option<map<string, JsValue>>,    // access_token -> userinfo
    lookup: JsValue -> Lookup,                           // email -> existing user
    createUser: JsValue -> Option<JsValue>,              // createUser argument -> new user id
    sign: Claims -> Option<string>,                      // claims -> 7-day session token
    encode: string -> string)                            // encodeURIComponent

  const NoCodeLocation := "/?error=No authorization code received"
  const AuthFailed := "Authentication failed. Please try again."
  const Dashboard := "/dashboard.html"

  /** Seven days, in seconds. */
  const SessionMaxAge: nat := 7 * 24 * 60 * 60

  /** The argument of `createUser`: the email, the profile details and the access
      token as user metadata, and a pre-confirmed email. */
  function NewUser(profile: map<string, JsValue>, accessToken: JsValue): JsValue {
    Object([
      ("email", Prop(profile, "email")),
      ("user_metadata", Object([
        ("linkedin_id", Prop(profile, "sub")),
        ("name", Prop(profile, "name")),
        ("picture", Prop(profile, "picture")),
        ("linkedin_access_token", accessToken)])),
      ("email_confirm", Bool(true))
    ])
  }

  /** The id of the user: the existing one when the lookup finds a row, otherwise a
      newly created one; a failed creation (or a throwing lookup) gives none. */
  function ResolveUser(profile: map<string, JsValue>, accessToken: JsValue, s: Services): (id: Option<JsValue>)
    ensures s.lookup(Prop(profile, "email")).Found? ==> id == Some(s.lookup(Prop(profile, "email")).id)
    ensures s.lookup(Prop(profile, "email")).NoRow? ==> id == s.createUser(NewUser(profile, accessToken))
    ensures s.lookup(Prop(profile, "email")).LookupThrew? ==> id.None?
  {
    match s.lookup(Prop(profile, "email"))
    case LookupThrew => None
    case Found(existing) => Some(existing)
    case NoRow(_) => s.createUser(NewUser(profile, accessToken))
  }

  /** The session claims: exactly the user id, email, name and access token. */
  function SessionClaims(userId: JsValue, profile: map<string, JsValue>, accessToken: JsValue): (c: Claims)
    ensures c.Keys == {"userId", "email", "name", "linkedin_access_token"}
    ensures c["userId"] == userId && c["linkedin_access_token"] == accessToken
    ensures c["email"] == Prop(profile, "email") && c["name"] == Prop(profile, "name")
  {
    map["userId" := userId, "email" := Prop(profile, "email"), "name" := Prop(profile, "name"),
        "linkedin_access_token" := accessToken]
  }

  /** The claims the `try` block would sign for this code, if every call before the
      signing succeeds. */
  function SessionFor(code: string, s: Services): Option<Claims> {
    match s.exchange(code)
    case None => None
    case Some(accessToken) =>
      match s.profile(accessToken)
      case None => None
      case Some(profile) =>
        match ResolveUser(profile, accessToken, s)
        case None => None
        case Some(userId) => Some(SessionClaims(userId, profile, accessToken))
  }

  /** The session token of the whole `try` block, or none when anything threw. */
  function SignIn(code: string, s: Services): Option<string> {
    match SessionFor(code, s)
    case None => None
    case Some(claims) => s.sign(claims)
  }

  /** The session cookie; unlike the state cookie it is always `Secure`. */
  function SessionSetCookie(token: string): Cookie {
    Cookie(Auth.SessionCookieName, token, ["HttpOnly", "Secure", "SameSite=Lax", "Path=/", "Max-Age=" + Decimal(SessionMaxAge)])
  }

  /** `/?error=<encoded message>`. */
  function ErrorPath(s: Services, message: string): string {
    "/?error=" + s.encode(message)
  }

  function Callback(req: Request, s: Services): (res: Response)
    ensures res.status == 405 <==> req.httpMethod != "GET"
    ensures res.status == 405 ==> res.body == Json(ErrorObject(MethodNotAllowed))
    ensures res.status != 405 ==> res.status == RedirectStatus && res.location.Some? && res.location.value.Path?
    // a provider error wins over everything else; its description is preferred
    ensures req.httpMethod == "GET" && StringTruthy(Param(req, "error")) ==>
      var desc := Param(req, "error_description");
      && res.setCookie.None?
      && res.location == Some(Path(ErrorPath(s, if StringTruthy(desc) then desc.value else req.query["error"])))
    ensures req.httpMethod == "GET" && !StringTruthy(Param(req, "error")) && !StringTruthy(Param(req, "code")) ==>
      res.setCookie.None? && res.location == Some(Path(NoCodeLocation))
    // any failed call after that ends on the generic failure page without a cookie
    ensures req.httpMethod == "GET" && !StringTruthy(Param(req, "error")) && StringTruthy(Param(req, "code"))
            && SignIn(req.query["code"], s).None? ==>
      res.setCookie.None? && res.location == Some(Path(ErrorPath(s, AuthFailed)))
    // a session cookie is set exactly when the whole chain succeeded, and then
    // it carries the signed token and the browser goes to the dashboard
    ensures res.setCookie.Some? <==>
      && req.httpMethod == "GET" && !StringTruthy(Param(req, "error")) && StringTruthy(Param(req, "code"))
      && SignIn(req.query["code"], s).Some?
    ensures res.setCookie.Some? ==>
      && res.setCookie.value == SessionSetCookie(SignIn(req.query["code"], s).value)
      && res.location == Some(Path(Dashboard))
    ensures res.forwarded.None?
  {
    if req.httpMethod != "GET" then
      JsonReply(405, [], ErrorObject(MethodNotAllowed))
    else
      var error, desc, code := Param(req, "error"), Param(req, "error_description"), Param(req, "code");
      if StringTruthy(error) then
        Redirect(Path(ErrorPath(s, if StringTruthy(desc) then desc.value else error.value)), None)
      else if !StringTruthy(code) then
        Redirect(Path(NoCodeLocation), None)
      else
        match SignIn(code.value, s)
        case None => Redirect(Path(ErrorPath(s, AuthFailed)), None)
        case Some(token) => Redirect(Path(Dashboard), Some(SessionSetCookie(token)))
  }

  /** The `state` parameter is read but never compared: the answer is the same
      whatever state comes back, or none. */
  lemma StateIgnored(req: Request, s: Services, state: string)
    ensures Callback(req.(query := req.query["state" := state]), s) == Callback(req.(query := req.query - {"state"}), s)
  {
  }

  /** A found user is reused: the creation oracle is not consulted. */
  lemma FoundUserNotCreated(profile: map<string, JsValue>, accessToken: JsValue, s: Services, create: JsValue -> Option<JsValue>)
    requires s.lookup(Prop(profile, "email")).Found?
    ensures ResolveUser(profile, accessToken, s) == ResolveUser(profile, accessToken, s.(createUser := create))
  {
  }

  /** A lookup error is treated exactly like "no such user". */
  lemma LookupErrorIgnored(profile: map<string, JsValue>, accessToken: JsValue, s: Services, e: string)
    requires s.lookup(Prop(profile, "email")) == NoRow(Some(e))
    ensures ResolveUser(profile, accessToken, s) == ResolveUser(profile, accessToken, s.(lookup := _ => NoRow(None)))
  {
  }

  /** The session cookie is `Secure` whatever the environment, and its `Max-Age`
      reads back as seven days, 604800 seconds. */
  lemma SessionLifetime(token: string)
    ensures var a := SessionSetCookie(token).attributes[4];
      && |a| > 8 && a[..8] == "Max-Age=" && DecimalValue(a[8..]) == 604800
    ensures "Secure" in SessionSetCookie(token).attributes
  {
    var a := SessionSetCookie(token).attributes[4];
    assert a[8..] == Decimal(SessionMaxAge);
    DecimalRoundTrip(SessionMaxAge);
  }

  /** Seven days is written out as the digits `604800`. */
  lemma SessionMaxAgeDigits()
    ensures Decimal(SessionMaxAge) == "604800"
  {
    assert Decimal(6) == "6";
    assert Decimal(60) == Decimal(6) + "0";
    assert Decimal(604) == Decimal(60) + "4";
    assert Decimal(6048) == Decimal(604) + "8";
    assert Decimal(60480) == Decimal(6048) + "0";
    assert Decimal(604800) == Decimal(60480) + "0";
  }

  /** The rendered session cookie is, character for character, the header the
      callback writes. */
  lemma SessionSetCookieText(token: string)
    ensures RenderCookie(SessionSetCookie(token))
         == "session=" + token + "; HttpOnly; Secure; SameSite=Lax; Path=/; Max-Age=604800"
  {
    assert Auth.SessionCookieName + "=" == "session=";
    SessionAttributes();
  }

  lemma SessionAttributes()
    ensures RenderAttributes(SessionSetCookie("").attributes)
         == "; HttpOnly; Secure; SameSite=Lax; Path=/; Max-Age=604800"
  {
    var a := "; " + "HttpOnly" + "; " + "Secure";
    assert a == "; HttpOnly; Secure";
    var b := a + "; " + "SameSite=Lax";
    assert b == "; HttpOnly; Secure; SameSite=Lax";
    var c := b + "; " + "Path=/";
    assert c == "; HttpOnly; Secure; SameSite=Lax; Path=/";
    var d := c + "; " + "Max-Age=604800";
    assert d == "; HttpOnly; Secure; SameSite=Lax; Path=/; Max-Age=604800";
    RenderFiveAttributes("HttpOnly", "Secure", "SameSite=Lax", "Path=/", "Max-Age=604800");
    SessionMaxAgeAttribute();
  }

  lemma SessionMaxAgeAttribute()
    ensures SessionSetCookie("").attributes == ["HttpOnly", "Secure", "SameSite=Lax", "Path=/", "Max-Age=604800"]
  {
    SessionMaxAgeDigits();
    assert "Max-Age=" + Decimal(SessionMaxAge) == "Max-Age=" + "604800";
    assert "Max-Age=" + "604800" == "Max-Age=604800";
  }
}

=== FILE: check.dfy ===
/** `GET /api/auth/check`: reports whether the caller holds a valid session and,
    if so, only the email and display name from its claims. */
module AuthCheck {
  import opened Wrappers
  import opened Js
  import opened Http
  import opened Auth

  /** `{ email: user.email, name: user.name }`. */
  function UserSummary(claims: Claims): JsValue {
    Object([("email", Prop(claims, "email")), ("name", Prop(claims, "name"))])
  }

  function Check(req: Request, verify: string -> Option<Claims>): (res: Response)
    ensures res.status == 405 <==> req.httpMethod != "GET"
    ensures res.status == 401 <==> req.httpMethod == "GET" && GetUser(req, verify).None?
    ensures res.status == 200 <==> req.httpMethod == "GET" && GetUser(req, verify).Some?
    ensures res.status == 405 ==> res.body == Json(ErrorObject(MethodNotAllowed))
    ensures res.status == 401 ==> res.body == Json(Object([("authenticated", Bool(false))]))
    ensures res.status == 200 ==>
      res.body == Json(Object([("authenticated", Bool(true)), ("user", UserSummary(GetUser(req, verify).value))]))
    ensures res.setCookie.None? && res.location.None? && res.forwarded.None?
  {
    if req.httpMethod != "GET" then
      JsonReply(405, [], ErrorObject(MethodNotAllowed))
    else
      match GetUser(req, verify)
      case None => JsonReply(401, [], Object([("authenticated", Bool(false))]))
      case Some(user) =>
        JsonReply(200, [], Object([("authenticated", Bool(true)), ("user", UserSummary(user))]))
  }

  /** The method is checked before the cookie is looked at: for any other method the
      answer depends on neither the cookie header nor the verifier. */
  lemma CheckMethodFirst(req: Request, cookie: Option<string>, v1: string -> Option<Claims>, v2: string -> Option<Claims>)
    requires req.httpMethod != "GET"
    ensures Check(req, v1) == Check(req.(cookie := cookie), v2)
  {
  }

  /** Nothing in the claims but `email` and `name` reaches the response: two
      verifiers whose claims agree on those two give the same answer, so the stored
      access token and user id are never exposed. */
  lemma CheckRevealsOnlyEmailAndName(req: Request, v1: string -> Option<Claims>, v2: string -> Option<Claims>)
    requires GetUser(req, v1).Some? <==> GetUser(req, v2).Some?
    requires GetUser(req, v1).Some? ==>
      && Prop(GetUser(req, v1).value, "email") == Prop(GetUser(req, v2).value, "email")
      && Prop(GetUser(req, v1).value, "name") == Prop(GetUser(req, v2).value, "name")
    ensures Check(req, v1) == Check(req, v2)
  {
  }
}

=== FILE: generate.dfy ===
/** `POST /api/generate`: the ordered chain OPTIONS, method, session, required
    fields, then the forward of the generation request to the webhook. */
module Generate {
  import opened Wrappers
  import opened Js
  import opened Http
  import opened Auth
  import opened Proxy

  const DefaultBrandContext := "Quest And Crossfire - Small fixes, big clarity"
  const MissingFields := "Missing required fields"
  const GenerateFailed := "Failed to generate post"

  /** `theme`, `post_type`, `length` and `tone` are all truthy. */
  predicate HasRequiredFields(body: map<string, JsValue>) {
    && Truthy(Prop(body, "theme"))
    && Truthy(Prop(body, "post_type"))
    && Truthy(Prop(body, "length"))
    && Truthy(Prop(body, "tone"))
  }

  /** The JSON object sent to the webhook. */
  function Payload(body: map<string, JsValue>): JsValue {
    Object([
      ("theme", Prop(body, "theme")),
      ("post_type", Prop(body, "post_type")),
      ("length", Prop(body, "length")),
      ("tone", Prop(body, "tone")),
      ("brand_context", Or(Prop(body, "brand_context"), Str(DefaultBrandContext)))
    ])
  }

  /** The part of the handler after the session check, inside its `try` block. */
  function Forward(body: RequestBody, webhook: JsValue -> Upstream<string>): Response {
    match body
    case NoObject(message) =>
      Response(500, CorsHeaders, None, None, Json(ErrorWithDetails(GenerateFailed, message)), None)
    case Fields(fields) =>
      if !HasRequiredFields(fields) then
        JsonReply(400, CorsHeaders, ErrorObject(MissingFields))
      else
        var payload := Payload(fields);
        var outcome := webhook(payload);
        match UpstreamError(outcome)
        case Some(message) =>
          Response(500, CorsHeaders, None, None, Json(ErrorWithDetails(GenerateFailed, message)), Some(payload))
        case None =>
          Response(200, CorsHeaders, None, None, Text(outcome.read.value), Some(payload))
  }

  function Generate(req: Request, verify: string -> Option<Claims>, webhook: JsValue -> Upstream<string>): (res: Response)
    // every answer carries the CORS headers, sets no cookie and redirects nowhere
    ensures res.headers == CorsHeaders && res.setCookie.None? && res.location.None?
    ensures res.status in {200, 400, 401, 405, 500}
    // preflight, before the session is looked at
    ensures req.httpMethod == "OPTIONS" ==> res == Preflight
    ensures res.status == 405 <==> req.httpMethod != "OPTIONS" && req.httpMethod != "POST"
    ensures res.status == 405 ==> res.body == Json(ErrorObject(MethodNotAllowed))
    ensures res.status == 401 ==> res.body == Json(ErrorObject(UnauthorizedLoginFirst))
    ensures res.status == 401 <==> req.httpMethod == "POST" && GetUser(req, verify).None?
    ensures res.status == 400 <==>
      && req.httpMethod == "POST" && GetUser(req, verify).Some?
      && req.body.Fields? && !HasRequiredFields(req.body.fields)
    ensures res.status == 400 ==> res.body == Json(ErrorObject(MissingFields))
    // a body that cannot be destructured fails inside the `try` block
    ensures req.httpMethod == "POST" && GetUser(req, verify).Some? && req.body.NoObject? ==>
      res.status == 500 && res.body == Json(ErrorWithDetails(GenerateFailed, req.body.destructureError))
    // nothing is forwarded unless every earlier check passed
    ensures res.forwarded.Some? <==>
      && req.httpMethod == "POST" && GetUser(req, verify).Some?
      && req.body.Fields? && HasRequiredFields(req.body.fields)
    // the forwarded payload is the four fields plus the brand context, defaulted
    ensures res.forwarded.Some? ==>
      var b := req.body.fields;
      && res.forwarded.value.Object?
      && res.forwarded.value.fields == [
           ("theme", b["theme"]), ("post_type", b["post_type"]),
           ("length", b["length"]), ("tone", b["tone"]),
           ("brand_context", if Truthy(Prop(b, "brand_context")) then b["brand_context"] else Str(DefaultBrandContext))]
    // the upstream answer decides between 200 (its text, verbatim) and 500
    ensures res.forwarded.Some? ==>
      var outcome := webhook(res.forwarded.value);
      && (res.status == 200 <==> UpstreamError(outcome).None?)
      && (res.status == 200 ==> res.body == Text(outcome.read.value))
      && (res.status == 500 ==>
            res.body == Json(ErrorWithDetails(GenerateFailed, UpstreamError(outcome).value)))
  {
    if req.httpMethod == "OPTIONS" then Preflight
    else if req.httpMethod != "POST" then JsonReply(405, CorsHeaders, ErrorObject(MethodNotAllowed))
    else if GetUser(req, verify).None? then JsonReply(401, CorsHeaders, ErrorObject(UnauthorizedLoginFirst))
    else Forward(req.body, webhook)
  }

  /** No webhook call without a forward: whenever nothing is forwarded, the answer
      does not depend on the webhook at all. */
  lemma NoForwardNoWebhook(req: Request, verify: string -> Option<Claims>, w1: JsValue -> Upstream<string>, w2: JsValue -> Upstream<string>)
    requires Generate(req, verify, w1).forwarded.None?
    ensures Generate(req, verify, w1) == Generate(req, verify, w2)
  {
  }
}

=== FILE: http.dfy ===
/** The abstract request and response the handlers exchange with the serverless
    runtime: only the parts the decision logic reads or writes. */
module Http {
  import opened Wrappers
  import opened Js

  /** Decoded session claims: the payload object of a verified token. */
  type Claims = map<string, JsValue>

  /** `req.body`: either `null` or `undefined`, on which destructuring throws a
      TypeError with the given message, or the properties of the body. A string,
      number or boolean body destructures without error. Of the fields the
      handlers read, only `length` exists on such a value (a string's length),
      and the handlers reject it for an undefined `theme` or `post_text` before
      `length` matters, so it answers as `Fields(map[])` does. */
  datatype RequestBody = NoObject(destructureError: string) | Fields(fields: map<string, JsValue>)

  /** `req`: method, `headers.cookie` (absent or a string), the query parameters,
      the body, and the `user` slot that the authentication wrapper fills in. */
  datatype Request = Request(
    httpMethod: string,
    cookie: Option<string>,
    query: map<string, string>,
    body: RequestBody,
    user: Option<Claims>)

  /** A `Set-Cookie` header: `name=value` followed by its attributes. */
  datatype Cookie = Cookie(name: string, value: string, attributes: seq<string>)

  /** The header text of a cookie: `name=value; attr1; attr2; ...`. */
  function RenderCookie(c: Cookie): string {
    c.name + "=" + c.value + RenderAttributes(c.attributes)
  }

  function RenderAttributes(attributes: seq<string>): string {
    if |attributes| == 0 then "" else "; " + attributes[0] + RenderAttributes(attributes[1..])
  }

  /** Rendering a list of attributes one element at a time. */
  lemma RenderAttributesCons(a: string, rest: seq<string>)
    ensures RenderAttributes([a] + rest) == "; " + a + RenderAttributes(rest)
  {
    assert ([a] + rest)[1..] == rest;
  }

  lemma RenderFourAttributes(a: string, b: string, c: string, d: string)
    ensures RenderAttributes([a, b, c, d]) == "; " + a + "; " + b + "; " + c + "; " + d
  {
    RenderAttributesCons(d, []);
    assert [d] + [] == [d];
    RenderAttributesCons(c, [d]);
    assert [c] + [d] == [c, d];
    RenderAttributesCons(b, [c, d]);
    assert [b] + [c, d] == [b, c, d];
    RenderAttributesCons(a, [b, c, d]);
    assert [a] + [b, c, d] == [a, b, c, d];
  }

  lemma RenderFiveAttributes(a: string, b: string, c: string, d: string, e: string)
    ensures RenderAttributes([a, b, c, d, e]) == "; " + a + "; " + b + "; " + c + "; " + d + "; " + e
  {
    RenderFourAttributes(b, c, d, e);
    RenderAttributesCons(a, [b, c, d, e]);
    assert [a] + [b, c, d, e] == [a, b, c, d, e];
  }

  /** A redirect target: a path on the same site, or an absolute URL with its query
      parameters in the order they were appended (serialisation is not modelled). */
  datatype Location = Path(path: string) | Url(base: string, params: seq<(string, string)>)

  /** What was written as the response body: nothing (`end()`, or a redirect), a
      JSON value (`json(...)`), or raw text (`send(...)`). */
  datatype Body = Empty | Json(value: JsValue) | Text(text: string)

  /** Everything a handler did to `res`, plus the JSON payload it handed to its
      outbound webhook call, if it made one. */
  datatype Response = Response(
    status: int,
    headers: seq<(string, string)>,
    setCookie: Option<Cookie>,
    location: Option<Location>,
    body: Body,
    forwarded: Option<JsValue>)

  /** Status the runtime's `res.redirect(url)` helper uses when no status is given. */
  const RedirectStatus := 307

  const MethodNotAllowed := "Method not allowed"

  /** `{ error: message }`. */
  function ErrorObject(message: string): JsValue {
    Object([("error", Str(message))])
  }

  /** `{ error: message, details: details }`. */
  function ErrorWithDetails(message: string, details: string): JsValue {
    Object([("error", Str(message)), ("details", Str(details))])
  }

  /** `res.status(status).json(value)` after `headers` were set. */
  function JsonReply(status: int, headers: seq<(string, string)>, value: JsValue): Response {
    Response(status, headers, None, None, Json(value), None)
  }

  /** `res.redirect(location)`, after the given cookie (if any) was set. */
  function Redirect(location: Location, cookie: Option<Cookie>): Response {
    Response(RedirectStatus, [], cookie, Some(location), Empty, None)
  }

  /** The value of query parameter `key`, if present. */
  function Param(req: Request, key: string): Option<string> {
    if key in req.query then Some(req.query[key]) else None
  }

  /** An optional string, a query parameter or an environment variable, is truthy
      when present and non-empty. */
  predicate StringTruthy(p: Option<string>) {
    p.Some? && |p.value| > 0
  }
}

=== FILE: js.dfy ===
/** JavaScript values as they reach the handlers from parsed JSON bodies, decoded
    session claims and upstream responses, with the truthiness rules the handlers'
    `!x` and `x || y` tests use. */
module Js {

  datatype JsValue =
    | Undefined
    | Null
    | Bool(b: bool)
    | Number(n: real)
    | NaN
    | Str(s: string)
    | Array(items: seq<JsValue>)
    | Object(fields: seq<(string, JsValue)>)

  /** ECMAScript ToBoolean: `undefined`, `null`, `false`, `0`, `NaN` and `""` are
      falsy; every other value, including every object and array, is truthy. */
  predicate Truthy(v: JsValue) {
    match v
    case Undefined => false
    case Null => false
    case Bool(b) => b
    case Number(n) => n != 0.0
    case NaN => false
    case Str(s) => |s| > 0
    case Array(_) => true
    case Object(_) => true
  }

  /** `a || b`. */
  function Or(a: JsValue, b: JsValue): JsValue {
    if Truthy(a) then a else b
  }

  /** Property read `obj.key` on a plain object given by its own properties. */
  function Prop(obj: map<string, JsValue>, key: string): JsValue {
    if key in obj then obj[key] else Undefined
  }

  /** The empty object literal `{}`. */
  const EmptyObject: JsValue := Object([])
}

=== FILE: linkedin.dfy ===
/** `GET /api/auth/linkedin`: starts the LinkedIn OAuth flow by setting the state
    cookie and redirecting to the authorization endpoint. The random state is an
    input. */
module LinkedInLogin {
  import opened Wrappers
  import opened Strings
  import opened Http

  /** The two environment variables the handler reads; `None` is unset. */
  datatype OAuthEnv = OAuthEnv(clientId: Option<string>, redirectUri: Option<string>)

  const NotConfigured := "LinkedIn OAuth not configured"
  const AuthorizationEndpoint := "https://www.linkedin.com/oauth/v2/authorization"
  const Scope := "openid profile email w_member_social"
  const StateCookieName := "linkedin_oauth_state"

  /** The state cookie: `Secure` is left out when the redirect URI mentions
      `localhost`, since such a development server speaks plain HTTP. */
  function StateCookie(state: string, redirectUri: string): Cookie {
    if Contains(redirectUri, "localhost") then
      Cookie(StateCookieName, state, ["HttpOnly", "SameSite=Lax", "Path=/", "Max-Age=600"])
    else
      Cookie(StateCookieName, state, ["HttpOnly", "Secure", "SameSite=Lax", "Path=/", "Max-Age=600"])
  }

  /** The query parameters of the authorization URL, in the order they are appended. */
  function AuthorizationParams(clientId: string, redirectUri: string, state: string): seq<(string, string)> {
    [("response_type", "code"), ("client_id", clientId), ("redirect_uri", redirectUri),
     ("state", state), ("scope", Scope)]
  }

  function Initiate(req: Request, env: OAuthEnv, state: string): (res: Response)
    ensures res.status == 405 <==> req.httpMethod != "GET"
    ensures res.status == 405 ==> res.body == Json(ErrorObject(MethodNotAllowed))
    ensures res.status == 500 <==>
      req.httpMethod == "GET" && !(StringTruthy(env.clientId) && StringTruthy(env.redirectUri))
    ensures res.status == 500 ==> res.body == Json(ErrorObject(NotConfigured))
    // no cookie and no redirect unless the request is a GET and both variables are set
    ensures res.setCookie.Some? || res.location.Some? ==>
      req.httpMethod == "GET" && StringTruthy(env.clientId) && StringTruthy(env.redirectUri)
    ensures req.httpMethod == "GET" && StringTruthy(env.clientId) && StringTruthy(env.redirectUri) ==>
      var uri := env.redirectUri.value;
      && res.status == RedirectStatus
      && res.setCookie.Some? && res.location.Some? && res.location.value.Url?
      && res.setCookie.value == StateCookie(state, uri)
      // the state in the cookie is the state sent to the provider
      && res.setCookie.value.name == StateCookieName && res.setCookie.value.value == state
      && res.location.value.base == AuthorizationEndpoint
      && res.location.value.params == AuthorizationParams(env.clientId.value, uri, state)
      // Secure exactly when the redirect URI does not mention localhost
      && ("Secure" in res.setCookie.value.attributes <==> !Contains(uri, "localhost"))
    ensures res.forwarded.None?
  {
    if req.httpMethod != "GET" then
      JsonReply(405, [], ErrorObject(MethodNotAllowed))
    else if !StringTruthy(env.clientId) || !StringTruthy(env.redirectUri) then
      JsonReply(500, [], ErrorObject(NotConfigured))
    else
      var clientId, uri := env.clientId.value, env.redirectUri.value;
      Response(RedirectStatus, [], Some(StateCookie(state, uri)),
               Some(Url(AuthorizationEndpoint, AuthorizationParams(clientId, uri, state))), Empty, None)
  }

  /** The localhost test is a plain substring test on the redirect URI. */
  lemma SecureUnlessLocalhost(req: Request, env: OAuthEnv, state: string)
    requires req.httpMethod == "GET" && StringTruthy(env.clientId) && StringTruthy(env.redirectUri)
    ensures "Secure" in Initiate(req, env, state).setCookie.value.attributes
        <==> !exists i :: OccursAt(env.redirectUri.value, "localhost", i)
  {
    ContainsIffOccurs(env.redirectUri.value, "localhost");
  }

  /** The rendered state cookie is, character for character, one of the two header
      templates, chosen by the localhost test. */
  lemma StateCookieText(state: string, redirectUri: string)
    ensures RenderCookie(StateCookie(state, redirectUri)) == (if Contains(redirectUri, "localhost")
      then "linkedin_oauth_state=" + state + "; HttpOnly; SameSite=Lax; Path=/; Max-Age=600"
      else "linkedin_oauth_state=" + state + "; HttpOnly; Secure; SameSite=Lax; Path=/; Max-Age=600")
  {
    assert StateCookieName + "=" == "linkedin_oauth_state=";
    if Contains(redirectUri, "localhost") {
      LocalStateAttributes();
    } else {
      SecureStateAttributes();
    }
  }

  lemma LocalStateAttributes()
    ensures RenderAttributes(["HttpOnly", "SameSite=Lax", "Path=/", "Max-Age=600"])
         == "; HttpOnly; SameSite=Lax; Path=/; Max-Age=600"
  {
    var a := "; " + "HttpOnly" + "; " + "SameSite=Lax";
    assert a == "; HttpOnly; SameSite=Lax";
    var b := a + "; " + "Path=/";
    assert b == "; HttpOnly; SameSite=Lax; Path=/";
    var c := b + "; " + "Max-Age=600";
    assert c == "; HttpOnly; SameSite=Lax; Path=/; Max-Age=600";
    RenderFourAttributes("HttpOnly", "SameSite=Lax", "Path=/", "Max-Age=600");
  }

  lemma SecureStateAttributes()
    ensures RenderAttributes(["HttpOnly", "Secure", "SameSite=Lax", "Path=/", "Max-Age=600"])
         == "; HttpOnly; Secure; SameSite=Lax; Path=/; Max-Age=600"
  {
    var a := "; " + "HttpOnly" + "; " + "Secure";
    assert a == "; HttpOnly; Secure";
    var b := a + "; " + "SameSite=Lax";
    assert b == "; HttpOnly; Secure; SameSite=Lax";
    var c := b + "; " + "Path=/";
    assert c == "; HttpOnly; Secure; SameSite=Lax; Path=/";
    var d := c + "; " + "Max-Age=600";
    assert d == "; HttpOnly; Secure; SameSite=Lax; Path=/; Max-Age=600";
    RenderFiveAttributes("HttpOnly", "Secure", "SameSite=Lax", "Path=/", "Max-Age=600");
  }
}

=== FILE: proxy.dfy ===
/** What the two action proxies (`api/generate.js`, `api/publish.js`) share: the
    CORS headers, the abstract outcome of the outbound webhook call, and the error
    message that outcome raises inside their `try` blocks. */
module Proxy {
  import opened Wrappers
  import opened Strings
  import opened Http

  /** The four CORS headers both proxies set before anything else. */
  const CorsHeaders: seq<(string, string)> := [
    ("Access-Control-Allow-Origin", "*"),
    ("Access-Control-Allow-Methods", "POST, OPTIONS"),
    ("Access-Control-Allow-Headers", "Content-Type, Cookie"),
    ("Access-Control-Allow-Credentials", "true")
  ]

  const UnauthorizedLoginFirst := "Unauthorized. Please login first."

  /** The outcome of `await fetch(webhook, ...)` followed by reading the body:
      either the fetch itself rejected with a message, or the webhook answered with
      its `ok` flag and status, and reading its body succeeded or threw. */
  datatype Upstream<T> =
    | FetchFailed(message: string)
    | Responded(ok: bool, status: nat, read: Result<T, string>)

  /** The message of the error thrown in the `try` block, if any: a rejected fetch,
      ``n8n returned ${status}`` for a non-ok answer (the body is then not read),
      or the failure to read the body. */
  function UpstreamError<T>(u: Upstream<T>): Option<string> {
    match u
    case FetchFailed(m) => Some(m)
    case Responded(ok, status, read) =>
      if !ok then Some("n8n returned " + Decimal(status))
      else if read.Failure? then Some(read.error)
      else None
  }

  /** The answer to a preflight request: 200, the CORS headers, an empty body. */
  const Preflight: Response := Response(200, CorsHeaders, None, None, Empty, None)

  /** A non-ok webhook answer is reported with its status code, which can be read
      back from the message. */
  lemma UpstreamStatusReported<T>(u: Upstream<T>)
    requires u.Responded? && !u.ok
    ensures var m := UpstreamError(u).value;
      |m| > 13 && m[..13] == "n8n returned " && DecimalValue(m[13..]) == u.status
  {
    var m := UpstreamError(u).value;
    assert m[13..] == Decimal(u.status);
    DecimalRoundTrip(u.status);
  }
}

=== FILE: publish.dfy ===
/** `POST /api/publish`: the ordered chain OPTIONS, method, session, `post_text`,
    then the forward of the post text and its metadata to the webhook. */
module Publish {
  import opened Wrappers
  import opened Js
  import opened Http
  import opened Auth
  import opened Proxy

  const TextRequired := "Post text is required"
  const PublishFailed := "Failed to publish post"

  /** The JSON object sent to the webhook: the post text and the metadata, `{}` when
      the caller's is falsy. `post_id` is read from the body but never sent. */
  function Payload(body: map<string, JsValue>): JsValue {
    Object([
      ("post_text", Prop(body, "post_text")),
      ("metadata", Or(Prop(body, "metadata"), EmptyObject))
    ])
  }

  /** The part of the handler after the session check, inside its `try` block. */
  function Forward(body: RequestBody, webhook: JsValue -> Upstream<JsValue>): Response {
    match body
    case NoObject(message) =>
      Response(500, CorsHeaders, None, None, Json(ErrorWithDetails(PublishFailed, message)), None)
    case Fields(fields) =>
      if !Truthy(Prop(fields, "post_text")) then
        JsonReply(400, CorsHeaders, ErrorObject(TextRequired))
      else
        var payload := Payload(fields);
        var outcome := webhook(payload);
        match UpstreamError(outcome)
        case Some(message) =>
          Response(500, CorsHeaders, None, None, Json(ErrorWithDetails(PublishFailed, message)), Some(payload))
        case None =>
          Response(200, CorsHeaders, None, None, Json(outcome.read.value), Some(payload))
  }

  function Publish(req: Request, verify: string -> Option<Claims>, webhook: JsValue -> Upstream<JsValue>): (res: Response)
    ensures res.headers == CorsHeaders && res.setCookie.None? && res.location.None?
    ensures res.status in {200, 400, 401, 405, 500}
    ensures req.httpMethod == "OPTIONS" ==> res == Preflight
    ensures res.status == 405 <==> req.httpMethod != "OPTIONS" && req.httpMethod != "POST"
    ensures res.status == 405 ==> res.body == Json(ErrorObject(MethodNotAllowed))
    ensures res.status == 401 ==> res.body == Json(ErrorObject(UnauthorizedLoginFirst))
    ensures res.status == 401 <==> req.httpMethod == "POST" && GetUser(req, verify).None?
    ensures res.status == 400 <==>
      && req.httpMethod == "POST" && GetUser(req, verify).Some?
      && req.body.Fields? && !Truthy(Prop(req.body.fields, "post_text"))
    ensures res.status == 400 ==> res.body == Json(ErrorObject(TextRequired))
    // a body that cannot be destructured fails inside the `try` block
    ensures req.httpMethod == "POST" && GetUser(req, verify).Some? && req.body.NoObject? ==>
      res.status == 500 && res.body == Json(ErrorWithDetails(PublishFailed, req.body.destructureError))
    ensures res.forwarded.Some? <==>
      && req.httpMethod == "POST" && GetUser(req, verify).Some?
      && req.body.Fields? && Truthy(Prop(req.body.fields, "post_text"))
    ensures res.forwarded.Some? ==>
      var b := req.body.fields;
      && res.forwarded.value.Object?
      && res.forwarded.value.fields == [
           ("post_text", b["post_text"]),
           ("metadata", if Truthy(Prop(b, "metadata")) then b["metadata"] else Object([]))]
    ensures res.forwarded.Some? ==>
      var outcome := webhook(res.forwarded.value);
      && (res.status == 200 <==> UpstreamError(outcome).None?)
      && (res.status == 200 ==> res.body == Json(outcome.read.value))
      && (res.status == 500 ==>
            res.body == Json(ErrorWithDetails(PublishFailed, UpstreamError(outcome).value)))
  {
    if req.httpMethod == "OPTIONS" then Preflight
    else if req.httpMethod != "POST" then JsonReply(405, CorsHeaders, ErrorObject(MethodNotAllowed))
    else if GetUser(req, verify).None? then JsonReply(401, CorsHeaders, ErrorObject(UnauthorizedLoginFirst))
    else Forward(req.body, webhook)
  }

  /** `post_id` has no influence on anything the handler does. */
  lemma PostIdIgnored(req: Request, fields: map<string, JsValue>, id: JsValue,
                      verify: string -> Option<Claims>, webhook: JsValue -> Upstream<JsValue>)
    ensures Publish(req.(body := Fields(fields)), verify, webhook)
         == Publish(req.(body := Fields(fields["post_id" := id])), verify, webhook)
  {
  }

  lemma NoForwardNoWebhook(req: Request, verify: string -> Option<Claims>, w1: JsValue -> Upstream<JsValue>, w2: JsValue -> Upstream<JsValue>)
    requires Publish(req, verify, w1).forwarded.None?
    ensures Publish(req, verify, w1) == Publish(req, verify, w2)
  {
  }
}

=== FILE: session_flow.dfy ===
/** How the login callback and the request authenticator fit together: the cookie
    the callback sets, sent back by the browser, is recognised by `/api/auth/check`,
    which then reports the email and name of the LinkedIn profile that signed in. */
module SessionFlow {
  import opened Wrappers
  import opened Strings
  import opened Js
  import opened Http
  import opened Auth
  import opened AuthCheck
  import opened LinkedInCallback

  /** `decoded` holds every signed claim: each key of `claims` reads back with the
      same value. The decoded payload may carry more (the `iat` and `exp` that
      `expiresIn` makes the signer add), and a claim whose value is `undefined`,
      which JSON drops, reads back as `undefined` all the same. */
  predicate KeepsClaims(decoded: Option<Claims>, claims: Claims) {
    decoded.Some? && forall k :: k in claims ==> Prop(decoded.value, k) == claims[k]
  }

  /** A value that `JSON.stringify` followed by `JSON.parse` gives back unchanged
      (a string, a boolean or `null`), or `undefined`, which is dropped from the
      payload and so reads back as `undefined` all the same. */
  predicate JsonSafeValue(v: JsValue) {
    v.Str? || v.Bool? || v.Null? || v.Undefined?
  }

  predicate JsonSafe(c: Claims) {
    forall k :: k in c ==> JsonSafeValue(c[k])
  }

  /** Claims that a token made with `expiresIn` keeps: JSON-safe values, no `iat`
      (which the signer replaces when it is falsy) and no `exp` (with which the
      signer throws instead of signing). */
  predicate Signable(c: Claims) {
    "iat" !in c && "exp" !in c && JsonSafe(c)
  }

  /** The verifier accepts whatever the signer produced from signable claims (same
      secret, token not yet expired) and gives back a payload holding those claims. */
  ghost predicate SignVerifyRoundTrip(sign: Claims -> Option<string>, verify: string -> Option<Claims>) {
    forall c :: Signable(c) && sign(c).Some? ==> KeepsClaims(verify(sign(c).value), c)
  }

  /** The payload `jwt.verify` gives back for a token that `jwt.sign` made from `c`
      with `expiresIn`: `c` through JSON, which drops its `undefined` claims,
      stamped with the issue time `iat` and the expiry `exp`. */
  function StampedPayload(c: Claims, iat: JsValue, exp: JsValue): Claims {
    (map k | k in c && c[k] != Undefined :: c[k])["iat" := iat]["exp" := exp]
  }

  /** A stamped payload holds every claim it was made from. */
  lemma StampedPayloadKeepsClaims(c: Claims, iat: JsValue, exp: JsValue)
    requires "iat" !in c && "exp" !in c
    ensures KeepsClaims(Some(StampedPayload(c, iat, exp)), c)
  {
  }

  /** A signer and verifier that hand back the stamped JSON payload of every token
      made from signable claims, as `jsonwebtoken` does, meet `SignVerifyRoundTrip`. */
  lemma StampingSignerRoundTrips(sign: Claims -> Option<string>, verify: string -> Option<Claims>)
    requires forall c :: Signable(c) && sign(c).Some? ==>
      exists iat, exp :: verify(sign(c).value) == Some(StampedPayload(c, iat, exp))
    ensures SignVerifyRoundTrip(sign, verify)
  {
    forall c | Signable(c) && sign(c).Some?
      ensures KeepsClaims(verify(sign(c).value), c)
    {
      var iat, exp :| verify(sign(c).value) == Some(StampedPayload(c, iat, exp));
      StampedPayloadKeepsClaims(c, iat, exp);
    }
  }

  /** The request a browser makes after storing the session cookie. */
  function CheckRequest(cookie: Cookie): Request {
    Request("GET", Some(cookie.name + "=" + cookie.value), map[], Fields(map[]), None)
  }

  /** A successful callback followed by `GET /api/auth/check` with the cookie it set
      answers 200 with the email and name of the profile fetched during sign-in. */
  lemma LoginThenCheck(req: Request, s: Services, verify: string -> Option<Claims>)
    requires SignVerifyRoundTrip(s.sign, verify)
    requires Callback(req, s).setCookie.Some?
    requires WellFormedToken(Callback(req, s).setCookie.value.value)
    requires JsonSafe(SessionFor(req.query["code"], s).value)
    ensures var profile := s.profile(s.exchange(req.query["code"]).value).value;
      var res := Check(CheckRequest(Callback(req, s).setCookie.value), verify);
      && res.status == 200
      && res.body == Json(Object([("authenticated", Bool(true)),
                                  ("user", Object([("email", Prop(profile, "email")), ("name", Prop(profile, "name"))]))]))
  {
    var code := req.query["code"];
    var token := SignIn(code, s).value;
    var cookie := Callback(req, s).setCookie.value;
    assert cookie == SessionSetCookie(token);
    CheckAfterSignIn(code, s, verify, token);
    var claims := SessionFor(code, s).value;
    var user := GetUser(CheckRequest(cookie), verify).value;
    assert "email" in claims && "name" in claims;
    assert Prop(user, "email") == claims["email"] && Prop(user, "name") == claims["name"];
  }

  /** After a successful sign-in, a check request carrying the signed token in a
      `session` cookie is authenticated, with a user holding every claim that was
      signed, and answers 200. */
  lemma CheckAfterSignIn(code: string, s: Services, verify: string -> Option<Claims>, token: string)
    requires SignVerifyRoundTrip(s.sign, verify)
    requires SignIn(code, s) == Some(token) && WellFormedToken(token)
    requires JsonSafe(SessionFor(code, s).value)
    ensures var req := CheckRequest(SessionSetCookie(token));
      && KeepsClaims(GetUser(req, verify), SessionFor(code, s).value)
      && Check(req, verify).status == 200
  {
    var claims := SessionFor(code, s).value;
    var req := CheckRequest(SessionSetCookie(token));
    var c := SessionSetCookie(token);
    assert c.name + "=" == "session=";
    assert req.cookie == Some("session=" + token);
    SessionOnlyCookie(token);
    assert Signable(claims);
    assert KeepsClaims(verify(token), claims);
  }

  /** The `name=value` part of a rendered `Set-Cookie` header, read by the request
      parser, gives back the name and the value, whatever attributes follow. */
  lemma RenderedCookieParsesBack(c: Cookie)
    requires '=' !in c.name && ';' !in c.name && WellFormedToken(c.value)
    requires |c.name| > 0 && !IsJsWhitespace(c.name[0])
    ensures CookieEntries(RenderCookie(c))[0] == Entry(c.name, Some(c.value))
  {
    var head := c.name + "=" + c.value;
    assert ';' !in head by {
      assert forall k :: 0 <= k < |head| ==> head[k] == (if k < |c.name| then c.name[k] else if k == |c.name| then '=' else c.value[k - |c.name| - 1]);
    }
    ParseEntryOf("", c.name, c.value, "");
    assert "" + c.name + "=" + c.value + "" == head;
    var attrs := RenderAttributes(c.attributes);
    if |c.attributes| == 0 {
      assert RenderCookie(c) == head;
      SinglePieceEntry(head);
    } else {
      assert attrs == [';'] + (" " + c.attributes[0] + RenderAttributes(c.attributes[1..]));
      assert RenderCookie(c) == head + [';'] + attrs[1..];
      SplitAfterPiece(head, attrs[1..], ';');
    }
  }

  /** The session cookie the callback sets, rendered as a header, starts with the
      `session` entry carrying the signed token. */
  lemma SessionSetCookieParsesBack(token: string)
    requires WellFormedToken(token)
    ensures CookieEntries(RenderCookie(SessionSetCookie(token)))[0] == Entry(SessionCookieName, Some(token))
  {
    RenderedCookieParsesBack(SessionSetCookie(token));
  }
}

=== FILE: strings.dfy ===
/** The few JavaScript string primitives the handlers rely on, on `seq<char>`:
    `split` with a one-character separator, `trim`, `includes`, and the decimal
    rendering of a non-negative integer used by template literals. */
module Strings {

  /** A character that `String.prototype.trim` removes: the ECMAScript WhiteSpace
      and LineTerminator code points. */
  predicate IsJsWhitespace(c: char) {
    || c == '\t' || c == '\n' || c == '\U{000B}' || c == '\U{000C}' || c == '\r'
    || c == ' ' || c == '\U{00A0}' || c == '\U{1680}'
    || ('\U{2000}' <= c <= '\U{200A}')
    || c == '\U{2028}' || c == '\U{2029}' || c == '\U{202F}' || c == '\U{205F}'
    || c == '\U{3000}' || c == '\U{FEFF}'
  }

  predicate AllSpace(s: string) {
    forall k :: 0 <= k < |s| ==> IsJsWhitespace(s[k])
  }

  /** Neither the first nor the last character is whitespace (vacuous for ""). */
  predicate NoEdgeSpace(s: string) {
    |s| > 0 ==> !IsJsWhitespace(s[0]) && !IsJsWhitespace(s[|s| - 1])
  }

  // ---------------------------------------------------------------- split / join

  /** `s.split(sep)`: the maximal separator-free pieces of `s`, in order. There is
      always at least one piece, and `k` separators give `k + 1` pieces. */
  function Split(s: string, sep: char): (parts: seq<string>)
    ensures |parts| >= 1
    ensures forall i :: 0 <= i < |parts| ==> sep !in parts[i]
  {
    if |s| == 0 then [""]
    else
      var rest := Split(s[1..], sep);
      if s[0] == sep then [""] + rest
      else [[s[0]] + rest[0]] + rest[1..]
  }

  /** `parts.join(sep)` for a non-empty list of pieces. */
  function Join(parts: seq<string>, sep: char): string
    requires |parts| >= 1
  {
    if |parts| == 1 then parts[0] else parts[0] + [sep] + Join(parts[1..], sep)
  }

  /** Splitting loses nothing: joining the pieces back gives the original string. */
  lemma {:induction false} JoinSplit(s: string, sep: char)
    ensures Join(Split(s, sep), sep) == s
  {
    if |s| > 0 {
      var rest := Split(s[1..], sep);
      JoinSplit(s[1..], sep);
      var parts := Split(s, sep);
      if s[0] == sep {
        assert parts[1..] == rest;
      } else if |rest| == 1 {
        assert parts == [[s[0]] + rest[0]];
        assert [s[0]] + s[1..] == s;
      } else {
        assert parts[1..] == rest[1..];
        assert Join(rest, sep) == rest[0] + [sep] + Join(rest[1..], sep);
        assert [s[0]] + s[1..] == s;
      }
    }
  }

  lemma {:induction false} SplitNoSeparator(a: string, sep: char)
    requires sep !in a
    ensures Split(a, sep) == [a]
  {
    if |a| > 0 {
      SplitNoSeparator(a[1..], sep);
      assert [a[0]] + a[1..] == a;
    }
  }

  lemma {:induction false} SplitAfterPiece(a: string, b: string, sep: char)
    requires sep !in a
    ensures Split(a + [sep] + b, sep) == [a] + Split(b, sep)
  {
    var s := a + [sep] + b;
    if |a| == 0 {
      assert s[1..] == b;
    } else {
      assert s[1..] == a[1..] + [sep] + b;
      SplitAfterPiece(a[1..], b, sep);
      assert [a[0]] + a[1..] == a;
    }
  }

  /** The converse of `JoinSplit`: separator-free pieces are recovered exactly. */
  lemma {:induction false} SplitJoin(parts: seq<string>, sep: char)
    requires |parts| >= 1
    requires forall i :: 0 <= i < |parts| ==> sep !in parts[i]
    ensures Split(Join(parts, sep), sep) == parts
  {
    if |parts| == 1 {
      SplitNoSeparator(parts[0], sep);
    } else {
      SplitJoin(parts[1..], sep);
      SplitAfterPiece(parts[0], Join(parts[1..], sep), sep);
      assert [parts[0]] + parts[1..] == parts;
    }
  }

  lemma {:induction false} JoinAppend(parts: seq<string>, b: string, sep: char)
    requires |parts| >= 1
    ensures Join(parts + [b], sep) == Join(parts, sep) + [sep] + b
  {
    if |parts| > 1 {
      JoinAppend(parts[1..], b, sep);
      assert (parts + [b])[1..] == parts[1..] + [b];
    }
  }

  /** Appending a separator and a separator-free piece appends one piece. */
  lemma SplitAppend(a: string, b: string, sep: char)
    requires sep !in b
    ensures Split(a + [sep] + b, sep) == Split(a, sep) + [b]
  {
    var parts := Split(a, sep);
    JoinSplit(a, sep);
    JoinAppend(parts, b, sep);
    SplitJoin(parts + [b], sep);
  }

  // ---------------------------------------------------------------------- trim

  /** Number of whitespace characters at the start of `s`. */
  function LeadingSpace(s: string): (n: nat)
    ensures n <= |s|
    ensures AllSpace(s[..n])
    ensures n < |s| ==> !IsJsWhitespace(s[n])
  {
    if |s| == 0 || !IsJsWhitespace(s[0]) then 0
    else
      var n := 1 + LeadingSpace(s[1..]);
      assert forall k :: 1 <= k < n ==> s[..n][k] == s[1..][..n - 1][k - 1];
      n
  }

  /** Number of whitespace characters at the end of `s`. */
  function TrailingSpace(s: string): (n: nat)
    ensures n <= |s|
    ensures AllSpace(s[|s| - n..])
    ensures n < |s| ==> !IsJsWhitespace(s[|s| - n - 1])
  {
    if |s| == 0 || !IsJsWhitespace(s[|s| - 1]) then 0
    else
      var init := s[..|s| - 1];
      var n := 1 + TrailingSpace(init);
      assert s[|s| - n..] == init[|init| - (n - 1)..] + [s[|s| - 1]];
      n
  }

  /** `r` is what remains of `s` once its whitespace margins are cut off. */
  ghost predicate TrimmedFrom(r: string, s: string) {
    exists i, j :: 0 <= i <= j <= |s| && s[i..j] == r && AllSpace(s[..i]) && AllSpace(s[j..]) && NoEdgeSpace(r)
  }

  /** `s.trim()`. */
  function Trim(s: string): string {
    var rest := s[LeadingSpace(s)..];
    rest[..|rest| - TrailingSpace(rest)]
  }

  /** `trim` cuts off exactly the whitespace margins. */
  lemma TrimCutsMargins(s: string)
    ensures TrimmedFrom(Trim(s), s)
  {
    var lo := LeadingSpace(s);
    var rest := s[lo..];
    var hi := |rest| - TrailingSpace(rest);
    var r := rest[..hi];
    assert s[lo..lo + hi] == r;
    assert s[lo + hi..] == rest[hi..];
    assert |r| > 0 ==> r[0] == s[lo];
  }

  /** Any way of cutting whitespace margins off `s` that leaves no whitespace at
      the edges gives exactly `Trim(s)`. */
  lemma TrimmedFromIsTrim(r: string, s: string, i: nat, j: nat)
    requires i <= j <= |s| && s[i..j] == r
    requires AllSpace(s[..i]) && AllSpace(s[j..]) && NoEdgeSpace(r)
    ensures Trim(s) == r
  {
    var lo := LeadingSpace(s);
    if i == j {
      // the whole of s is whitespace
      assert lo == |s|;
    } else {
      assert r[0] == s[i] && r[|r| - 1] == s[j - 1];
      assert lo == i;
      var rest := s[lo..];
      var tr := TrailingSpace(rest);
      assert rest[j - i - 1] == s[j - 1];
      assert |rest| - tr == j - i;
      assert rest[..j - i] == r;
    }
  }

  /** The margins are determined by `s`, so `TrimmedFrom` pins down a single result. */
  lemma TrimmedFromUnique(r1: string, r2: string, s: string)
    requires TrimmedFrom(r1, s) && TrimmedFrom(r2, s)
    ensures r1 == r2
  {
    var i1, j1 :| 0 <= i1 <= j1 <= |s| && s[i1..j1] == r1 && AllSpace(s[..i1]) && AllSpace(s[j1..]) && NoEdgeSpace(r1);
    var i2, j2 :| 0 <= i2 <= j2 <= |s| && s[i2..j2] == r2 && AllSpace(s[..i2]) && AllSpace(s[j2..]) && NoEdgeSpace(r2);
    TrimmedFromIsTrim(r1, s, i1, j1);
    TrimmedFromIsTrim(r2, s, i2, j2);
  }

  /** `trim` leaves alone a string without whitespace margins, and removes any
      whitespace placed in front of one. */
  lemma TrimAfterSpace(pad: string, x: string)
    requires AllSpace(pad) && NoEdgeSpace(x)
    ensures Trim(pad + x) == x
  {
    var s := pad + x;
    assert s[|pad|..|s|] == x && s[..|pad|] == pad && s[|s|..] == [];
    TrimmedFromIsTrim(x, s, |pad|, |s|);
  }

  // ------------------------------------------------------------------ includes

  ghost predicate OccursAt(s: string, t: string, i: int) {
    0 <= i && i + |t| <= |s| && s[i..i + |t|] == t
  }

  /** `s.includes(t)`. */
  function Contains(s: string, t: string): bool {
    if |t| <= |s| && s[..|t|] == t then true
    else if |s| == 0 then false
    else Contains(s[1..], t)
  }

  lemma {:induction false} ContainsIffOccurs(s: string, t: string)
    ensures Contains(s, t) <==> exists i :: OccursAt(s, t, i)
  {
    if |t| <= |s| && s[..|t|] == t {
      assert OccursAt(s, t, 0);
    } else if |s| == 0 {
      assert forall i :: !OccursAt(s, t, i);
    } else {
      ContainsIffOccurs(s[1..], t);
      forall i | OccursAt(s[1..], t, i) ensures OccursAt(s, t, i + 1) {
        assert s[1..][i..i + |t|] == s[i + 1..i + 1 + |t|];
      }
      forall i | OccursAt(s, t, i) ensures i >= 1 && OccursAt(s[1..], t, i - 1) {
        assert i != 0;
        assert s[1..][i - 1..i - 1 + |t|] == s[i..i + |t|];
      }
    }
  }

  // ------------------------------------------------------------------- numbers

  function DigitChar(d: nat): char
    requires d < 10
  {
    "0123456789"[d]
  }

  function DigitValue(c: char): nat {
    if '0' <= c <= '9' then (c - '0') as nat else 0
  }

  /** The decimal text `${n}` of a non-negative integer. */
  function Decimal(n: nat): (r: string)
    ensures |r| >= 1
    ensures forall i :: 0 <= i < |r| ==> '0' <= r[i] <= '9'
  {
    if n < 10 then [DigitChar(n)] else Decimal(n / 10) + [DigitChar(n % 10)]
  }

  /** Reads a string of decimal digits back as a number. */
  function DecimalValue(s: string): nat {
    if |s| == 0 then 0 else 10 * DecimalValue(s[..|s| - 1]) + DigitValue(s[|s| - 1])
  }

  lemma {:induction false} DecimalRoundTrip(n: nat)
    ensures DecimalValue(Decimal(n)) == n
  {
    if n >= 10 {
      DecimalRoundTrip(n / 10);
      var r := Decimal(n);
      assert r[..|r| - 1] == Decimal(n / 10);
    }
  }
}

=== FILE: wrappers.dfy ===
/** The two wrapper types used throughout the model: `Option` stands for a
    JavaScript value that may be `undefined`/`null`, `Result` for an operation that
    either yields a value or throws an error carrying a message. */
module Wrappers {

  datatype Option<+T> = None | Some(value: T)

  datatype Result<+R, +E> = Success(value: R) | Failure(error: E)
}
